=== FILE: README.md ===
# Tile grid index mapping

A Dafny model of the tile grid in `adafruit_led_animation/tilegrid.py`. One
LED strip is wired as one or more chained tiles of `width` columns by
`height` pixels. Inside a tile the columns are wired as a serpentine: even
columns run upwards and odd columns run downwards. The module has three parts:

- **`generate_grid`** builds tuples of strip indices, one per logical column
  for one or two tiles. For three or more tiles it returns `tile_num - 1`
  growing tuples per column (see "## Findings"), and for `tile_num <= 0` none.
  - Its inner `single_tile_coord` walks the pixels of one tile.
  - Its inner `multi_tile` replicates each column for the further tiles.
- **`TileGrid`** wraps every generated tuple in a sub-map bound to the strip.
  - It forwards indexing, assignment, `fill`, `show`, brightness and
    auto-write to the sub-maps and the strip.
  - Assignment shows the strip when auto-write is on.
- **`reverse_x_mapper` and `reverse_y_mapper`** wrap a coordinate mapper so
  that the x or y origin sits on the other side.

Files (each one module):

| File | Module | Contents |
|---|---|---|
| `arith.dfy` | `Arith` | Euclidean quotient and remainder, and distributivity and monotonicity of multiplication. |
| `seqs.dfy` | `Seqs` | Integer ranges, reversal, shifting, joining lists of tuples, and multiset lemmas about them. |
| `grid_mapper.dfy` | `GridMapper` | A closed-form definition of what `generate_grid` returns (`Wire`, `Column`, `SingleTile`, `Replicate`, `MultiTile`, `Grid`), and methods that follow the source's loops, each proved to compute that definition. |
| `grid_properties.dfy` | `GridProperties` | Properties of the generated maps, listed below. |
| `grid_corrected.dfy` | `CorrectedGrid` | The replication defect for three or more tiles, and the corrected generator with its partition proof. |
| `tile_grid.dfy` | `TileGrids` | The adapter as a pure state-transition model, described below. |
| `coord_mappers.dfy` | `CoordMappers` | The two coordinate reversals. |

`GridProperties` proves these facts about the generated maps:

- the serpentine wiring is a bijection, with inverse `Unwire`;
- the single tile is a permutation of `[0, width * height)`;
- the entry layout of the replicated tuples;
- for two tiles, the case the code was written for, the map partitions
  `[0, 2 * width * height)`.

In `TileGrids` the strip is an abstract record holding its brightness, its
auto-write flag and a log of the calls the grid makes on it and on its
sub-maps. Errors are a `Result` value.

What was turned into parameters or abstracted:

- The strip and the `PixelMap` sub-maps are external objects. They are the
  `Strip` record and the `SubWrite`/`SubFill`/`Show` events.
- Colours are a type parameter `C`.
- Brightness is a `real`.
- `width` and `height` are natural numbers. `tile_num` is an integer, since
  the code gives zero and negative counts a meaning.

## Model

| member | source | states |
|---|---|---|
| GridMapper.Column | adafruit_led_animation/tilegrid.py:190-206 | Each column tuple holds exactly `height` indices. |
| GridMapper.SingleTile | adafruit_led_animation/tilegrid.py:187-208 | The single-tile map has one tuple per column, each `height` long. A tile with `height` 0 yields no tuples, since no row ever closes a tuple. |
| GridMapper.Take | adafruit_led_animation/tilegrid.py:218 | `tup[:height]` has `height` elements, or the whole tuple when the tuple is shorter. |
| GridMapper.Grown | adafruit_led_animation/tilegrid.py:220-221 | After k passes of the inner loop, the tuple holds k + 1 copies of the column. |
| GridMapper.Replicas | adafruit_led_animation/tilegrid.py:220-222 | The inner loop appends exactly one tuple per pass. |
| GridMapper.SingleTileCoord | adafruit_led_animation/tilegrid.py:187-208 | The loop over linear positions builds the single-tile map. Tuple g has `height` entries. Row p holds `g*height + p` for even g and `(g+1)*height - 1 - p` for odd g. |
| GridMapper.MultiTileLoop | adafruit_led_animation/tilegrid.py:210-224 | The nested loops return the input unchanged when `tile_num - 1` is 0. Otherwise, for every column in order, they return `tile_num - 1` snapshots of the growing tuple, all shifted by the one constant `(tile_num - 1) * width * height`. |
| GridMapper.GenerateGrid | adafruit_led_animation/tilegrid.py:186-227 | `generate_grid` returns the replication step applied to the single-tile map. |
| GridProperties.WireInBlock | adafruit_led_animation/tilegrid.py:195-198 | Row p of column g lies in the column's block `[g*height, g*height + height)`. It is counted from the block's bottom for even g and from its top for odd g. |
| GridProperties.Unwire | adafruit_led_animation/tilegrid.py:190-198 | The inverse of the wiring. It maps a strip index to a column and row inside that column's block. |
| GridProperties.UnwireWire | adafruit_led_animation/tilegrid.py:195-198 | Unwiring a wired (column, row) gives back the same (column, row). |
| GridProperties.WireUnwire | adafruit_led_animation/tilegrid.py:195-198 | Wiring an unwired strip index gives back the same index. |
| GridProperties.SingleTileLocate | adafruit_led_animation/tilegrid.py:187-208 | Every index below `width*height` appears in the single-tile map, at its unwired position and at no other position. |
| GridProperties.ColumnIsBlock | adafruit_led_animation/tilegrid.py:190-206 | An even column is its block in ascending order. An odd column is the same block in descending order. |
| GridProperties.SingleTilePermutes | adafruit_led_animation/tilegrid.py:187-208 | Joined, the single-tile map is a permutation of `[0, width*height)`. |
| GridProperties.ShiftedTilePermutes | adafruit_led_animation/tilegrid.py:221 | The single-tile map shifted by d, joined, is a permutation of `[d, d + width*height)`. |
| GridProperties.GrownEntry | adafruit_led_animation/tilegrid.py:218-221 | Copy 0 of a grown tuple is the column itself. Every later copy is the column shifted by the same offset. |
| GridProperties.ReplicateLength | adafruit_led_animation/tilegrid.py:217-222 | The replication step yields `tile_num - 1` tuples per column. |
| GridProperties.ReplicateEntry | adafruit_led_animation/tilegrid.py:217-222 | Tuple `g*f + k` of the result is column g grown by k + 1 copies. |
| GridProperties.ReplicatedEntry | adafruit_led_animation/tilegrid.py:217-222 | Tuple `g*f + k` has `(k+2)*height` entries. Copy c at row p holds the column's row p, shifted when c > 0. |
| GridProperties.MultiTileDegenerate | adafruit_led_animation/tilegrid.py:212-222 | With `tile_num == 1` the single tile comes back unchanged. With `tile_num <= 0` the loop runs zero times and the map is empty. |
| GridProperties.GridEntry | adafruit_led_animation/tilegrid.py:186-227 | For a non-empty tile and `tile_num >= 2` the map has `width*(tile_num-1)` tuples. Tuple `g*(tile_num-1) + k` holds `(k+2)*height` indices. Copy c, row p holds `Wire(g, p)` plus `(tile_num-1)*width*height` for every c > 0. |
| GridProperties.TwoTilePartition | adafruit_led_animation/tilegrid.py:210-227 | For a non-empty tile and two tiles the map has one tuple per column, each `2*height` long. Together the tuples list every index of `[0, 2*width*height)` exactly once. |
| GridProperties.SingleTileExample | adafruit_led_animation/tilegrid.py:187-208 | A 2 x 3 tile maps to `[[0,1,2],[5,4,3]]`. |
| GridProperties.TwoTileExample | adafruit_led_animation/tilegrid.py:186-227 | Two chained 4 x 2 tiles map to `[[0,1,8,9],[3,2,11,10],[4,5,12,13],[7,6,15,14]]`. |
| CorrectedGrid.AsWrittenRepeatsIndices | adafruit_led_animation/tilegrid.py:217-222 | For a non-empty tile and `tile_num >= 3`, the second tuple holds index `(tile_num-1)*width*height` twice, at rows `height` and `2*height`. |
| CorrectedGrid.AsWrittenExample | adafruit_led_animation/tilegrid.py:217-222 | One 1 x 1 tile chained three times maps to `[[0,2],[0,2,2]]`. Index 1 never appears. |
| CorrectedGrid.CorrectedEntry | adafruit_led_animation/tilegrid.py:217-222 | Corrected tuple g holds, at copy t and row p, `t*width*height + Wire(g, p)`. |
| CorrectedGrid.CorrectedPartition | adafruit_led_animation/tilegrid.py:210-224 | The corrected map has one tuple per column of `tile_num*height` indices. Together they list every index of `[0, tile_num*width*height)` exactly once. |
| CorrectedGrid.CorrectedOneTile | adafruit_led_animation/tilegrid.py:214-215 | For one tile the corrected map equals the map as written. |
| CorrectedGrid.CorrectedTwoTiles | adafruit_led_animation/tilegrid.py:217-222 | For two tiles the corrected map equals the map as written. |
| TileGrids.New | adafruit_led_animation/tilegrid.py:53-83 | The constructor keeps the strip and the configuration. With `tile_num > 1` it makes one sub-map per tuple of the generated map, and otherwise none. That is `width*(tile_num-1)` sub-maps for a non-empty tile and none for an empty one. |
| TileGrids.NewLength | adafruit_led_animation/tilegrid.py:109-110 | `len` of a new grid is 0 when `tile_num <= 1`, and otherwise the number of generated tuples. That is `width*(tile_num-1)` for a non-empty tile and 0 for an empty one. |
| TileGrids.Get | adafruit_led_animation/tilegrid.py:100-107 | A slice is NotImplementedError. A tuple key is TypeError. An integer is accepted exactly in `[-n, n)`, returning `maps[i]` or `maps[i+n]`. Anything else is IndexError. |
| TileGrids.GetNegative | adafruit_led_animation/tilegrid.py:103-106 | `grid[-k]` is `grid[n-k]` for `1 <= k <= n`, and `grid[-(n+1)]` is IndexError. |
| TileGrids.ResolveTwoTiles | adafruit_led_animation/tilegrid.py:100-107 | For two tiles, `grid[x]` exists for every column x and has `2*height` entries. Entry y is the serpentine index of (x, y) in the first tile, or of (x, y - height) shifted by one tile. |
| TileGrids.ListIndex | adafruit_led_animation/tilegrid.py:93 | A Python list selector is valid exactly in `[-n, n)`, and the index it resolves to is below n. Any other selector is IndexError. |
| TileGrids.Set | adafruit_led_animation/tilegrid.py:88-98 | A slice is NotImplementedError and a plain index is ValueError. A pair succeeds exactly when its first selector is in `[-n, n)`, and is IndexError otherwise. It then logs one write to that sub-map and, when auto-write is on, one show. Nothing else changes. |
| TileGrids.SetShowsIffAutoWrite | adafruit_led_animation/tilegrid.py:97-98 | A successful assignment adds exactly one show when auto-write is on, and none when it is off. |
| TileGrids.Clamp | adafruit_led_animation/tilegrid.py:122 | `min(max(b, 0.0), 1.0)` lies in `[0, 1]`. It is b inside that interval, 0 below it and 1 above it. |
| TileGrids.ClampProperties | adafruit_led_animation/tilegrid.py:122 | Clamping is idempotent and monotone. |
| TileGrids.SetBrightness | adafruit_led_animation/tilegrid.py:112-122 | Reading brightness back after the setter gives the clamped request: the request when it is in `[0, 1]`, 0.0 below that range and 1.0 above it. The configuration, the maps, the auto-write flag and the call log are unchanged. |
| TileGrids.SetAutoWrite | adafruit_led_animation/tilegrid.py:139-148 | Reading auto-write back after the setter gives the value written. Nothing else changes. |
| TileGrids.ShowGrid | adafruit_led_animation/tilegrid.py:133-137 | `show` appends exactly one show of the strip to the call log. The earlier log, the maps, the brightness and the auto-write flag are unchanged. |
| TileGrids.Fill | adafruit_led_animation/tilegrid.py:124-131 | `fill` fills every sub-map once, in order, with the colour. It adds no show and changes nothing else. |
| CoordMappers.ReverseXMirrors | adafruit_led_animation/tilegrid.py:153-166 | The wrapped mapper is read at column `width - 1 - x`. For a column inside `[0, width)` it is only read at a column inside `[0, width)`. Reversing twice gives back the original mapper's values. |
| CoordMappers.ReverseYMirrors | adafruit_led_animation/tilegrid.py:169-182 | The wrapped mapper is read at row `height - 1 - y`. For a row inside `[0, height)` it is only read at a row inside `[0, height)`. Reversing twice gives back the original mapper's values. |
| CoordMappers.ReversalsCommute | adafruit_led_animation/tilegrid.py:153-182 | Reversing x then y gives the same values as reversing y then x. |

## Left out

- `PixelMap` and the strip driver are not part of this model.
  - What a sub-map does with the in-tile index of an assignment, and with a fill, is not modelled. The grid's calls on it are recorded as events instead.
  - For the same reason there is no write-then-read round trip through the grid.
- `__repr__` is left out. It only formats the sub-maps as text.
- The constructor arguments `orientation`, `alternating`, `reverse_x`, `reverse_y`, `top` and `bottom` are left out. They are accepted and never read.
  - The `HORIZONTAL` and `VERTICAL` constants exist only for them and are left out too.
- Negative `width` or `height` is not modelled, because a pixel count cannot be negative.
  - With exactly one of them negative the product is negative, so the generator's loop never runs and the map is empty.
  - With both negative, Python's floor division and modulo by a negative `height`, and the slice `tup[:height]` with a negative bound, would decide the result.
- Keys are modelled as an integer, a slice, or a pair of integers.
  - In assignment, every key that is neither a slice nor a tuple raises ValueError. That is the model's integer case.
  - A tuple of three or more parts is accepted by assignment, and its parts after the second are ignored. That behaves as the pair made of its first two parts.
  - A tuple of fewer than two parts raises IndexError in assignment. It is not modelled.
  - Keys of other types in indexing, such as strings or floats, are not modelled.
- Brightness is a mathematical `real`, not a binary float.
- The reverse mappers take any integer mapper. Mappers that raise for out-of-range coordinates are not distinguished.
- The code has no check that rejects a non-positive `width`, `height` or `tile_num`; this model follows the code.
  - `tile_num <= 1` gives a grid with no sub-maps.
  - An empty tile gives an empty map.
  - Rejecting these configurations would change behaviour, and the code does not do so.
- `TileGrids.New` keeps the generator as written, including the defect below. The corrected generator is a separate definition next to it.

## Findings

| source | as written | input that shows it | evidently intended | confidence | as-written member | corrected member |
|---|---|---|---|---|---|---|
| adafruit_led_animation/tilegrid.py:217-222 | Every extra copy is shifted by the same `(tile_num-1)*width*height`. The tuple is appended inside the inner loop, so each column yields `tile_num-1` growing tuples. | `width=1, height=1, tile_num=3` gives `[[0,2],[0,2,2]]`. Index 2 appears three times and index 1 never appears. | One tuple per column, in which copy t is shifted by `t*width*height`. The map is then a partition of `[0, tile_num*width*height)`. | not executed | CorrectedGrid.AsWrittenRepeatsIndices | CorrectedGrid.CorrectedPartition |

The two generators agree for one and two tiles (`CorrectedGrid.CorrectedOneTile` and `CorrectedGrid.CorrectedTwoTiles`). Two tiles is the configuration the code was written for, and for it `GridProperties.TwoTilePartition` proves the map as written is a partition.

=== FILE: arith.dfy ===
/** Integer facts used by the index proofs: Euclidean quotient and
    remainder, and distributivity and monotonicity of multiplication. */
module Arith {

  /** Where linear position i + 1 falls, knowing where i falls. */
  lemma DivStep(i: nat, h: nat)
    requires h > 0
    ensures (i % h < h - 1) ==> (i + 1) / h == i / h && (i + 1) % h == i % h + 1
    ensures (i % h == h - 1) ==> (i + 1) / h == i / h + 1 && (i + 1) % h == 0
  {
    var q, m := i / h, i % h;
    assert i == q * h + m;
    if m < h - 1 {
      assert i + 1 == q * h + (m + 1);
      DivModUnique(i + 1, h, q, m + 1);
    } else {
      assert i + 1 == (q + 1) * h + 0;
      DivModUnique(i + 1, h, q + 1, 0);
    }
  }

  /** Quotient and remainder are determined by any decomposition. */
  lemma DivModUnique(v: int, h: int, q: int, m: int)
    requires h > 0 && 0 <= m < h && v == q * h + m
    ensures v / h == q && v % h == m
  {
    var q', m' := v / h, v % h;
    MulDiff(q, q', h);
    if q' < q {
      MulAtLeast(q - q', h);
    } else if q' > q {
      MulAtLeast(q' - q, h);
    }
  }

  lemma MulDiff(a: int, b: int, h: int)
    ensures a * h - b * h == (a - b) * h
  {
  }

  lemma MulNonneg(a: nat, b: nat)
    ensures a * b >= 0
  {
  }

  lemma MulSucc(t: int, d: int)
    ensures (t + 1) * d == t * d + d
  {
  }

  lemma {:induction false} MulAtLeast(k: int, h: int)
    requires k >= 1 && h >= 0
    ensures k * h >= h
  {
    if k > 1 {
      MulAtLeast(k - 1, h);
      MulDiff(k, k - 1, h);
    }
  }

  /** A quotient by h is below w exactly when the dividend is below w * h. */
  lemma DivBelow(v: nat, h: nat, w: nat)
    requires h > 0 && v < w * h
    ensures v / h < w
  {
    var q := v / h;
    if q >= w {
      MulDiff(q, w, h);
      if q > w {
        MulAtLeast(q - w, h);
      }
    }
  }
}

=== FILE: coord_mappers.dfy ===
/** Coordinate transformers that wrap a grid mapper so that the x (or y)
    origin sits on the opposite side. They build a new mapper and never
    look at pixels. */
module CoordMappers {

  /** reverse_x_mapper: the wrapped mapper is read at column width - 1 - x. */
  function ReverseX<T>(width: int, mapper: (int, int) -> T): (r: (int, int) -> T)
    ensures forall x, y :: r(x, y) == mapper(width - 1 - x, y)
  {
    var maxX := width - 1;
    (x: int, y: int) => mapper(maxX - x, y)
  }

  /** reverse_y_mapper: the wrapped mapper is read at row height - 1 - y. */
  function ReverseY<T>(height: int, mapper: (int, int) -> T): (r: (int, int) -> T)
    ensures forall x, y :: r(x, y) == mapper(x, height - 1 - y)
  {
    var maxY := height - 1;
    (x: int, y: int) => mapper(x, maxY - y)
  }

  /** Reversing x mirrors the columns: column x is read at width - 1 - x,
      a column inside the grid is only ever read at a column inside the
      grid, and reversing twice restores the original mapper. */
  lemma ReverseXMirrors<T>(width: int, mapper: (int, int) -> T, x: int, y: int)
    ensures ReverseX(width, mapper)(x, y) == mapper(width - 1 - x, y)
    ensures 0 <= x < width ==>
              exists x' :: 0 <= x' < width && ReverseX(width, mapper)(x, y) == mapper(x', y)
    ensures ReverseX(width, ReverseX(width, mapper))(x, y) == mapper(x, y)
  {
    if 0 <= x < width {
      assert 0 <= width - 1 - x < width;
    }
  }

  /** Reversing y mirrors the rows: row y is read at height - 1 - y, a row
      inside the grid is only ever read at a row inside the grid, and
      reversing twice restores the original mapper. */
  lemma ReverseYMirrors<T>(height: int, mapper: (int, int) -> T, x: int, y: int)
    ensures ReverseY(height, mapper)(x, y) == mapper(x, height - 1 - y)
    ensures 0 <= y < height ==>
              exists y' :: 0 <= y' < height && ReverseY(height, mapper)(x, y) == mapper(x, y')
    ensures ReverseY(height, ReverseY(height, mapper))(x, y) == mapper(x, y)
  {
    if 0 <= y < height {
      assert 0 <= height - 1 - y < height;
    }
  }

  /** The two reversals act on different coordinates, so their order does
      not matter. */
  lemma ReversalsCommute<T>(width: int, height: int, mapper: (int, int) -> T, x: int, y: int)
    ensures ReverseX(width, ReverseY(height, mapper))(x, y) == ReverseY(height, ReverseX(width, mapper))(x, y)
  {
  }
}

=== FILE: grid_corrected.dfy ===
/** The replication step as written appends a tuple inside its inner loop
    and shifts every extra copy by the same (tile_num - 1) * width * height.
    For three or more tiles this repeats indices inside one tuple and never
    addresses the middle tiles. This module exhibits that, and defines the
    evidently intended generator: column g of the logical grid is column g of
    tile 0, then of tile 1, and so on, tile t shifted by t * width * height. */
module CorrectedGrid {
  import opened Seqs
  import opened GridMapper
  import opened GridProperties
  import opened Arith

  // ---------------------------------------------------------------------------
  // The generator as written
  // ---------------------------------------------------------------------------

  /** For tile_num >= 3 the second tuple returned holds the same strip index
      twice, and that index lies past every middle tile. */
  lemma AsWrittenRepeatsIndices(width: nat, height: nat, tileNum: int)
    requires width > 0 && height > 0 && tileNum >= 3
    ensures |Grid(width, height, tileNum)| >= 2
    ensures |Grid(width, height, tileNum)[1]| == 3 * height
    ensures Grid(width, height, tileNum)[1][height] == Grid(width, height, tileNum)[1][2 * height]
    ensures Grid(width, height, tileNum)[1][height] == (tileNum - 1) * (width * height)
  {
    GridEntry(width, height, tileNum, 0, 1, 1, 0);
    GridEntry(width, height, tileNum, 0, 1, 2, 0);
    MulAtLeast(width, tileNum - 1);
    assert 0 * (tileNum - 1) + 1 == 1;
  }

  /** The smallest instance: one 1 x 1 tile chained three times yields the
      tuples (0, 2) and (0, 2, 2); index 1 is never addressed. */
  lemma AsWrittenExample()
    ensures Grid(1, 1, 3) == [[0, 2], [0, 2, 2]]
  {
    var t := SingleTile(1, 1);
    assert Column(0, 1) == [0];
    assert t == [[0]];
    assert Grid(1, 1, 3) == Replicate(t, 1, 2, 2);
    assert Take([0], 1) == [0];
    assert Shift([0], 2) == [2];
    assert Grown([0], 2, 1) == [0, 2];
    assert Grown([0], 2, 2) == [0, 2, 2];
    assert Replicas([0], 1, 2, 2) == [[0, 2], [0, 2, 2]];
    assert t[..0] == [];
  }

  // ---------------------------------------------------------------------------
  // The intended generator
  // ---------------------------------------------------------------------------

  /** A column stacked over t tiles: copy s is the column shifted by s * d. */
  function Stack(col: seq<int>, d: int, t: nat): seq<int>
  {
    if t == 0 then [] else Stack(col, d, t - 1) + Shift(col, (t - 1) * d)
  }

  /** One tuple per column of the tile, each stacked over all chained tiles
      with the per-tile offset t * width * height. */
  function Corrected(width: nat, height: nat, tileNum: nat): seq<seq<int>>
  {
    var tile := SingleTile(width, height);
    seq(|tile|, g requires 0 <= g < |tile| => Stack(tile[g], width * height, tileNum))
  }

  /** A stack over t tiles is t copies long. */
  lemma {:induction false} StackLength(col: seq<int>, d: int, t: nat)
    ensures |Stack(col, d, t)| == t * |col|
  {
    if t > 0 {
      StackLength(col, d, t - 1);
      MulDiff(t, t - 1, |col|);
    }
  }

  /** Row p of copy s of a stacked column is the column's row p shifted by s * d. */
  lemma {:induction false} StackEntry(col: seq<int>, d: int, t: nat, s: nat, p: nat)
    requires s < t && p < |col|
    ensures s * |col| + p < |Stack(col, d, t)|
    ensures Stack(col, d, t)[s * |col| + p] == col[p] + s * d
  {
    StackLength(col, d, t);
    StackLength(col, d, t - 1);
    MulAtLeast(t - s, |col|);
    MulDiff(t, s, |col|);
    if s < t - 1 {
      StackEntry(col, d, t - 1, s, p);
      MulAtLeast(t - 1 - s, |col|);
      MulDiff(t - 1, s, |col|);
    }
  }

  /** Corrected tuple g holds, at copy t and row p, the serpentine index of
      (g, p) shifted by t * width * height. */
  lemma CorrectedEntry(width: nat, height: nat, tileNum: nat, g: nat, t: nat, p: nat)
    requires height > 0 && g < width && t < tileNum && p < height
    ensures |Corrected(width, height, tileNum)| == width
    ensures t * height + p < |Corrected(width, height, tileNum)[g]|
    ensures Corrected(width, height, tileNum)[g][t * height + p] == t * (width * height) + Wire(g, p, height)
  {
    var col := SingleTile(width, height)[g];
    assert col == Column(g, height);
    StackEntry(col, width * height, tileNum, t, p);
  }

  /** One more tile appends to every corrected tuple its column shifted by
      the new tile's offset. */
  lemma CorrectedSnoc(width: nat, height: nat, t: nat, n: nat)
    requires n == t + 1
    ensures |Corrected(width, height, n)| == |SingleTile(width, height)|
    ensures forall g :: 0 <= g < |SingleTile(width, height)| ==>
              Corrected(width, height, n)[g]
              == Corrected(width, height, t)[g] + ShiftAll(SingleTile(width, height), t * (width * height))[g]
  {
  }

  /** The intended property: the corrected tuples together list every index
      of [0, tile_num * width * height) exactly once, tile_num * height per
      column. */
  lemma CorrectedPartition(width: nat, height: nat, tileNum: nat)
    ensures |Corrected(width, height, tileNum)| == |SingleTile(width, height)|
    ensures forall g :: 0 <= g < |Corrected(width, height, tileNum)| ==>
              |Corrected(width, height, tileNum)[g]| == tileNum * height
    ensures multiset(Flatten(Corrected(width, height, tileNum)))
         == multiset(Range(0, tileNum * (width * height)))
  {
    CorrectedPermutes(width, height, tileNum);
    CorrectedLengths(width, height, tileNum);
  }

  /** The corrected tuples, joined, are a permutation of [0, tile_num * width * height). */
  lemma {:induction false} CorrectedPermutes(width: nat, height: nat, tileNum: nat)
    ensures multiset(Flatten(Corrected(width, height, tileNum)))
         == multiset(Range(0, tileNum * (width * height)))
  {
    if tileNum == 0 {
      CorrectedLengths(width, height, tileNum);
      EmptyTuples(Corrected(width, height, tileNum));
    } else {
      var t := tileNum - 1;
      CorrectedPermutes(width, height, t);
      CorrectedStep(width, height, t, tileNum);
    }
  }

  /** Every corrected tuple holds tile_num * height indices. */
  lemma CorrectedLengths(width: nat, height: nat, tileNum: nat)
    ensures |Corrected(width, height, tileNum)| == |SingleTile(width, height)|
    ensures forall g :: 0 <= g < |Corrected(width, height, tileNum)| ==>
              |Corrected(width, height, tileNum)[g]| == tileNum * height
  {
    var tile := SingleTile(width, height);
    forall g | 0 <= g < |tile|
      ensures |Stack(tile[g], width * height, tileNum)| == tileNum * height
    {
      StackLength(tile[g], width * height, tileNum);
    }
  }

  /** One induction step of CorrectedPartition: from t tiles to n = t + 1. */
  lemma CorrectedStep(width: nat, height: nat, t: nat, n: nat)
    requires n == t + 1
    requires multiset(Flatten(Corrected(width, height, t))) == multiset(Range(0, t * (width * height)))
    ensures multiset(Flatten(Corrected(width, height, n))) == multiset(Range(0, n * (width * height)))
  {
    CorrectedSplit(width, height, t, n);
    ShiftedTilePermutes(width, height, t * (width * height));
    StepBounds(width, height, t, n);
    JoinNext(Flatten(Corrected(width, height, t)), Flatten(ShiftAll(SingleTile(width, height), t * (width * height))),
             t * (width * height), width * height, n * (width * height));
  }

  /** The corrected tuples for n = t + 1 tiles, joined, hold those for t tiles
      and the tile shifted to the slot of tile t. */
  lemma CorrectedSplit(width: nat, height: nat, t: nat, n: nat)
    requires n == t + 1
    ensures multiset(Flatten(Corrected(width, height, n)))
         == multiset(Flatten(Corrected(width, height, t))
                     + Flatten(ShiftAll(SingleTile(width, height), t * (width * height))))
  {
    CorrectedSnoc(width, height, t, n);
    FlattenZip(Corrected(width, height, t), ShiftAll(SingleTile(width, height), t * (width * height)),
               Corrected(width, height, n));
  }

  /** Tile t starts at a non-negative offset and ends one tile later, where
      tile n = t + 1 starts. */
  lemma StepBounds(width: nat, height: nat, t: nat, n: nat)
    requires n == t + 1
    ensures 0 <= t * (width * height) && 0 <= width * height
    ensures n * (width * height) == t * (width * height) + width * height
  {
    MulNonneg(width, height);
    MulNonneg(t, width * height);
    MulSucc(t, width * height);
  }

  /** A list of empty tuples joins to nothing. */
  lemma {:induction false} EmptyTuples(ss: seq<seq<int>>)
    requires forall i :: 0 <= i < |ss| ==> |ss[i]| == 0
    ensures Flatten(ss) == []
  {
    if |ss| > 0 {
      EmptyTuples(ss[..|ss| - 1]);
    }
  }

  /** A column stacked over one tile is the column itself. */
  lemma StackOne(col: seq<int>, d: int)
    ensures Stack(col, d, 1) == col
  {
    assert (1 - 1) * d == 0;
    assert Shift(col, 0) == col;
  }

  /** A column stacked over two tiles is the column, then its copy shifted by d. */
  lemma StackTwo(col: seq<int>, d: int)
    ensures Stack(col, d, 2) == col + Shift(col, d)
  {
    StackOne(col, d);
    assert (2 - 1) * d == d;
  }

  /** With one tile both generators return the tile itself. */
  lemma CorrectedOneTile(width: nat, height: nat)
    ensures Corrected(width, height, 1) == Grid(width, height, 1)
  {
    var tile := SingleTile(width, height);
    forall g | 0 <= g < |tile|
      ensures Corrected(width, height, 1)[g] == tile[g]
    {
      StackOne(tile[g], width * height);
    }
  }

  /** With two tiles both generators pair every column with its copy in the
      second tile. */
  lemma CorrectedTwoTiles(width: nat, height: nat)
    ensures Corrected(width, height, 2) == Grid(width, height, 2)
  {
    var tile := SingleTile(width, height);
    var d := width * height;
    var r := Grid(width, height, 2);
    assert |r| == |tile| by {
      ReplicateLength(tile, height, d, 1);
    }
    forall g | 0 <= g < |tile|
      ensures r[g] == Corrected(width, height, 2)[g]
    {
      ReplicateOnce(tile, height, d, g);
      StackTwo(tile[g], d);
    }
  }
}

=== FILE: grid_mapper.dfy ===
/** The index generator of the tile grid: for one tile of `width` columns of
    `height` pixels wired in a serpentine (even columns run up, odd columns
    run down), list each column's strip indices, then replicate every column
    for the further chained tiles. */
module GridMapper {
  import opened Seqs
  import opened Arith

  /** Strip index of row p of column g in a tile whose columns hold h pixels. */
  function Wire(g: nat, p: nat, h: nat): int
  {
    if g % 2 == 0 then g * h + p else (g + 1) * h - 1 - p
  }

  /** Column g of a single tile: its h strip indices, row by row. */
  function Column(g: nat, h: nat): (r: seq<int>)
    ensures |r| == h
  {
    seq(h, p requires 0 <= p < h => Wire(g, p, h))
  }

  /** The single-tile map: one column tuple per column, or nothing at all when
      the tile has no pixels. */
  function SingleTile(width: nat, height: nat): (r: seq<seq<int>>)
    ensures |r| == (if height == 0 then 0 else width)
    ensures forall g :: 0 <= g < |r| ==> |r[g]| == height
  {
    if height == 0 then [] else seq(width, g requires 0 <= g < width => Column(g, height))
  }

  /** The first h elements of a tuple, or all of it when it is shorter. */
  function Take(tup: seq<int>, h: nat): (r: seq<int>)
    ensures |r| == (if h <= |tup| then h else |tup|)
  {
    if h <= |tup| then tup[..h] else tup
  }

  /** A tuple followed by k copies of itself, each copy shifted by d. */
  function Grown(col: seq<int>, d: int, k: nat): (r: seq<int>)
    ensures |r| == (k + 1) * |col|
  {
    if k == 0 then col else Grown(col, d, k - 1) + Shift(col, d)
  }

  /** The f tuples appended for one column: after each extra copy, the
      tuple as it stands so far. */
  function Replicas(tup: seq<int>, h: nat, d: int, f: nat): (r: seq<seq<int>>)
    ensures |r| == f
  {
    seq(f, k requires 0 <= k < f => Grown(Take(tup, h), d, k + 1))
  }

  /** The replicas of every column, column after column. */
  function Replicate(tiles: seq<seq<int>>, h: nat, d: int, f: nat): seq<seq<int>>
  {
    if |tiles| == 0 then []
    else Replicate(tiles[..|tiles| - 1], h, d, f) + Replicas(tiles[|tiles| - 1], h, d, f)
  }

  /** Number of extra passes: tile_num - 1, and none when that is negative. */
  function Passes(tileNum: int): nat
  {
    if tileNum > 1 then tileNum - 1 else 0
  }

  /** The multi-tile map as the generator builds it: the input unchanged for
      one tile, otherwise the replicas of each column with the constant shift
      (tile_num - 1) * width * height. */
  function MultiTile(tiles: seq<seq<int>>, width: nat, height: nat, tileNum: int): seq<seq<int>>
  {
    if tileNum == 1 then tiles
    else Replicate(tiles, height, (tileNum - 1) * (width * height), Passes(tileNum))
  }

  /** What the generator returns for a configuration. */
  function Grid(width: nat, height: nat, tileNum: int): seq<seq<int>>
  {
    MultiTile(SingleTile(width, height), width, height, tileNum)
  }

  // ---------------------------------------------------------------------------
  // The generator's loops
  // ---------------------------------------------------------------------------

  /** Appending row m of column g to the first m rows gives the first m + 1. */
  lemma ColumnPrefixStep(g: nat, h: nat, m: nat, temp: seq<int>)
    requires m < h
    requires m != 0 ==> temp == Column(g, h)[..m]
    ensures (if m == 0 then [] else temp) + [Wire(g, m, h)] == Column(g, h)[..m + 1]
    ensures m == h - 1 ==> (if m == 0 then [] else temp) + [Wire(g, m, h)] == Column(g, h)
  {
  }

  /** One more column extends the single-tile map by that column. */
  lemma SingleTileSnoc(g: nat, h: nat)
    requires h > 0
    ensures SingleTile(g + 1, h) == SingleTile(g, h) + [Column(g, h)]
  {
  }

  /** The single-tile loop: walk the linear positions 0 .. width*height - 1,
      open a new tuple at row 0 and close it at the last row. */
  method SingleTileCoord(width: nat, height: nat) returns (tile: seq<seq<int>>)
    ensures tile == SingleTile(width, height)
    ensures |tile| == (if height == 0 then 0 else width)
    ensures forall g :: 0 <= g < |tile| ==> |tile[g]| == height
    ensures forall g, p :: 0 <= g < |tile| && 0 <= p < height ==>
              tile[g][p] == (if g % 2 == 0 then g * height + p else (g + 1) * height - 1 - p)
  {
    tile := [];
    var temp: seq<int> := [];
    var i := 0;
    while i < width * height
      invariant 0 <= i <= width * height
      invariant tile == (if height == 0 then [] else SingleTile(i / height, height))
      invariant height > 0 && i % height != 0 ==> temp == Column(i / height, height)[..i % height]
    {
      var groupIndex := i / height;
      var ascending := groupIndex % 2 == 0;
      var numberWithinGroup := i % height;
      var number;
      if ascending {
        number := groupIndex * height + numberWithinGroup;
      } else {
        number := (groupIndex + 1) * height - 1 - numberWithinGroup;
      }
      ColumnPrefixStep(groupIndex, height, numberWithinGroup, temp);
      if numberWithinGroup == 0 {
        temp := [];
      }
      temp := temp + [number];
      DivStep(i, height);
      if numberWithinGroup == height - 1 {
        tile := tile + [temp];
        SingleTileSnoc(groupIndex, height);
      }
      i := i + 1;
    }
    if height > 0 {
      DivModUnique(width * height, height, width, 0);
    }
  }

  /** The multi-tile loops: for every column, start from its first `height`
      entries and append, after each extra copy, the tuple so far. */
  method MultiTileLoop(tiles: seq<seq<int>>, width: nat, height: nat, tileNum: int)
    returns (r: seq<seq<int>>)
    ensures r == MultiTile(tiles, width, height, tileNum)
  {
    var factor := tileNum - 1;
    if factor == 0 {
      r := tiles;
    } else {
      r := [];
      var d := factor * (width * height);
      var j := 0;
      while j < |tiles|
        invariant 0 <= j <= |tiles|
        invariant r == Replicate(tiles[..j], height, d, Passes(tileNum))
      {
        var tup := tiles[j];
        var modified := Take(tup, height);
        var n := 0;
        while n < factor
          invariant 0 <= n <= Passes(tileNum)
          invariant modified == Grown(Take(tup, height), d, n)
          invariant r == Replicate(tiles[..j], height, d, Passes(tileNum)) + Replicas(tup, height, d, n)
        {
          modified := modified + Shift(Take(tup, height), d);
          r := r + [modified];
          assert Replicas(tup, height, d, n + 1) == Replicas(tup, height, d, n) + [modified];
          n := n + 1;
        }
        assert tiles[..j + 1][..j] == tiles[..j];
        j := j + 1;
      }
      assert tiles[..|tiles|] == tiles;
    }
  }

  /** generate_grid: the single-tile map followed by the replication step. */
  method GenerateGrid(width: nat, height: nat, tileNum: int) returns (r: seq<seq<int>>)
    ensures r == Grid(width, height, tileNum)
  {
    var defaultTile := SingleTileCoord(width, height);
    r := MultiTileLoop(defaultTile, width, height, tileNum);
  }
}

=== FILE: grid_properties.dfy ===
/** What the generated maps look like: the serpentine wiring is a bijection,
    the single tile is a permutation of its index range, and the replication
    step appends shifted copies with one constant offset. */
module GridProperties {
  import opened Seqs
  import opened GridMapper
  import opened Arith

  // ---------------------------------------------------------------------------
  // The serpentine wiring and its inverse
  // ---------------------------------------------------------------------------

  /** Row p of column g lies in the column's block [g * h, g * h + h). */
  lemma WireInBlock(g: nat, p: nat, h: nat)
    requires p < h
    ensures g * h <= Wire(g, p, h) < g * h + h
    ensures Wire(g, p, h) == g * h + (if g % 2 == 0 then p else h - 1 - p)
  {
    MulDiff(g + 1, g, h);
  }

  /** The (column, row) that strip index v occupies in a tile with columns of
      h pixels: the column is v / h and the row is counted from the column's
      wired start. */
  function Unwire(v: nat, h: nat): (r: (nat, nat))
    requires h > 0
    ensures r.1 < h
    ensures r.0 * h <= v < r.0 * h + h
  {
    var g := v / h;
    (g, if g % 2 == 0 then v % h else h - 1 - v % h)
  }

  /** Unwiring a wired position gives back the position. */
  lemma UnwireWire(g: nat, p: nat, h: nat)
    requires p < h
    ensures Unwire(Wire(g, p, h), h) == (g, p)
  {
    WireInBlock(g, p, h);
    var m := if g % 2 == 0 then p else h - 1 - p;
    DivModUnique(Wire(g, p, h), h, g, m);
  }

  /** Wiring an unwired index gives back the index. */
  lemma WireUnwire(v: nat, h: nat)
    requires h > 0
    ensures Wire(Unwire(v, h).0, Unwire(v, h).1, h) == v
  {
    var (g, p) := Unwire(v, h);
    WireInBlock(g, p, h);
  }

  /** Every strip index of a width x height tile sits at exactly one
      (column, row) of the single-tile map, namely its unwired position. */
  lemma SingleTileLocate(width: nat, height: nat, v: nat)
    requires height > 0 && v < width * height
    ensures Unwire(v, height).0 < width
    ensures SingleTile(width, height)[Unwire(v, height).0][Unwire(v, height).1] == v
    ensures forall g, p :: 0 <= g < width && 0 <= p < height && SingleTile(width, height)[g][p] == v ==>
              (g, p) == Unwire(v, height)
  {
    DivBelow(v, height, width);
    WireUnwire(v, height);
    forall g, p | 0 <= g < width && 0 <= p < height && SingleTile(width, height)[g][p] == v
      ensures (g, p) == Unwire(v, height)
    {
      UnwireWire(g, p, height);
    }
  }

  // ---------------------------------------------------------------------------
  // The single tile is a permutation of [0, width * height)
  // ---------------------------------------------------------------------------

  /** An even column is its block in ascending order, an odd column the same
      block in descending order. */
  lemma ColumnIsBlock(g: nat, h: nat)
    ensures g % 2 == 0 ==> Column(g, h) == Range(g * h, g * h + h)
    ensures g % 2 == 1 ==> Column(g, h) == Reverse(Range(g * h, g * h + h))
  {
    var block := Range(g * h, g * h + h);
    if g % 2 == 0 {
      forall p | 0 <= p < h
        ensures Column(g, h)[p] == block[p]
      {
        WireInBlock(g, p, h);
      }
    } else {
      var rev := Reverse(block);
      forall p | 0 <= p < h
        ensures Column(g, h)[p] == rev[p]
      {
        WireInBlock(g, p, h);
      }
    }
  }

  /** A shifted column is its shifted block, ascending for an even column
      and descending for an odd one. */
  lemma ColumnShifted(g: nat, h: nat, d: int)
    ensures g % 2 == 0 ==> Shift(Column(g, h), d) == Range(g * h + d, g * h + h + d)
    ensures g % 2 == 1 ==> Shift(Column(g, h), d) == Reverse(Range(g * h + d, g * h + h + d))
  {
    ColumnIsBlock(g, h);
    ShiftRange(g * h, g * h + h, d);
    if g % 2 == 1 {
      ShiftReverse(Range(g * h, g * h + h), d);
    }
  }

  /** A shifted column holds its shifted block, each element once. */
  lemma ShiftedColumnPermutes(g: nat, h: nat, d: int)
    ensures multiset(Shift(Column(g, h), d)) == multiset(Range(g * h + d, g * h + h + d))
  {
    ColumnShifted(g, h, d);
    if g % 2 == 1 {
      ReversePermutes(Range(g * h + d, g * h + h + d));
    }
  }

  /** The single-tile map shifted by d, joined, is a permutation of
      [d, d + width * height). */
  lemma {:induction false} ShiftedTilePermutes(width: nat, height: nat, d: int)
    ensures multiset(Flatten(ShiftAll(SingleTile(width, height), d))) == multiset(Range(d, d + width * height))
  {
    if height == 0 || width == 0 {
      assert ShiftAll(SingleTile(width, height), d) == [];
      assert width * height == 0;
      assert Range(d, d + width * height) == [];
    } else {
      ShiftedTilePermutes(width - 1, height, d);
      ShiftedTileStep(width - 1, height, d);
    }
  }

  /** One induction step of ShiftedTilePermutes: from w columns to w + 1. */
  lemma ShiftedTileStep(w: nat, height: nat, d: int)
    requires height > 0
    requires multiset(Flatten(ShiftAll(SingleTile(w, height), d))) == multiset(Range(d, d + w * height))
    ensures multiset(Flatten(ShiftAll(SingleTile(w + 1, height), d))) == multiset(Range(d, d + (w + 1) * height))
  {
    FlattenShiftAllSnoc(w, height, d);
    ShiftedColumnPermutes(w, height, d);
    AppendBlock(Flatten(ShiftAll(SingleTile(w, height), d)), Shift(Column(w, height), d), d, w, height);
  }

  /** Joining a permutation of the first w blocks of size h with a permutation
      of block w gives a permutation of the first w + 1 blocks. */
  lemma AppendBlock(a: seq<int>, b: seq<int>, d: int, w: nat, h: nat)
    requires multiset(a) == multiset(Range(d, d + w * h))
    requires multiset(b) == multiset(Range(w * h + d, w * h + h + d))
    ensures multiset(a + b) == multiset(Range(d, d + (w + 1) * h))
  {
    MulNonneg(w, h);
    MulSucc(w, h);
    assert Range(w * h + d, w * h + h + d) == Range(d + w * h, d + (w + 1) * h);
    JoinPermutations(a, b, d, d + w * h, d + (w + 1) * h);
  }

  /** Joining the shifted map of one more column appends that shifted column. */
  lemma FlattenShiftAllSnoc(w: nat, height: nat, d: int)
    requires height > 0
    ensures Flatten(ShiftAll(SingleTile(w + 1, height), d)) == Flatten(ShiftAll(SingleTile(w, height), d)) + Shift(Column(w, height), d)
  {
    ShiftAllSnoc(w, height, d);
    FlattenSnoc(ShiftAll(SingleTile(w, height), d), Shift(Column(w, height), d));
  }

  /** Shifting the map of one more column appends the shifted column. */
  lemma ShiftAllSnoc(w: nat, height: nat, d: int)
    requires height > 0
    ensures ShiftAll(SingleTile(w + 1, height), d) == ShiftAll(SingleTile(w, height), d) + [Shift(Column(w, height), d)]
  {
    SingleTileSnoc(w, height);
  }

  /** Joined, the single-tile map lists every index of [0, width * height)
      exactly once. */
  lemma SingleTilePermutes(width: nat, height: nat)
    ensures multiset(Flatten(SingleTile(width, height))) == multiset(Range(0, width * height))
  {
    ShiftedTilePermutes(width, height, 0);
    ShiftZero(SingleTile(width, height));
  }

  // ---------------------------------------------------------------------------
  // The replication step
  // ---------------------------------------------------------------------------

  /** Copy c of a grown tuple is the tuple itself for c == 0 and the tuple
      shifted by d for every later copy. */
  lemma {:induction false} GrownEntry(col: seq<int>, d: int, k: nat, c: nat, p: nat)
    requires c <= k && p < |col|
    ensures c * |col| + p < |Grown(col, d, k)|
    ensures Grown(col, d, k)[c * |col| + p] == col[p] + (if c == 0 then 0 else d)
  {
    MulDiff(k + 1, k, |col|);
    if c < k {
      GrownEntry(col, d, k - 1, c, p);
      MulAtLeast(k - c, |col|);
      MulDiff(k, c, |col|);
    }
  }

  /** The replication step yields f tuples per input tuple. */
  lemma {:induction false} ReplicateLength(tiles: seq<seq<int>>, h: nat, d: int, f: nat)
    ensures |Replicate(tiles, h, d, f)| == |tiles| * f
  {
    if |tiles| > 0 {
      ReplicateLength(tiles[..|tiles| - 1], h, d, f);
      MulDiff(|tiles|, |tiles| - 1, f);
    }
  }

  /** Entry g * f + k of the replication step is tuple g grown by k + 1 copies. */
  lemma {:induction false} ReplicateEntry(tiles: seq<seq<int>>, h: nat, d: int, f: nat, g: nat, k: nat)
    requires g < |tiles| && k < f
    ensures g * f + k < |Replicate(tiles, h, d, f)|
    ensures Replicate(tiles, h, d, f)[g * f + k] == Grown(Take(tiles[g], h), d, k + 1)
  {
    var n := |tiles| - 1;
    ReplicateLength(tiles[..n], h, d, f);
    ReplicateLength(tiles, h, d, f);
    MulDiff(|tiles|, n, f);
    if g < n {
      ReplicateEntry(tiles[..n], h, d, f, g, k);
    } else {
      assert Replicate(tiles, h, d, f)[g * f + k] == Replicas(tiles[n], h, d, f)[k];
    }
    MulAtLeast(|tiles| - g, f);
    MulDiff(|tiles|, g, f);
  }

  /** With one pass, replicated tuple g is tuple g followed by its copy
      shifted by d. */
  lemma ReplicateOnce(tiles: seq<seq<int>>, h: nat, d: int, g: nat)
    requires g < |tiles| && |tiles[g]| == h
    ensures g < |Replicate(tiles, h, d, 1)|
    ensures Replicate(tiles, h, d, 1)[g] == tiles[g] + Shift(tiles[g], d)
  {
    ReplicateEntry(tiles, h, d, 1, g, 0);
    assert g * 1 + 0 == g;
    assert Take(tiles[g], h) == tiles[g];
    assert Grown(tiles[g], d, 1) == tiles[g] + Shift(tiles[g], d);
  }

  /** With one tile the input comes back unchanged; with no tiles or a
      negative count every column gets zero passes and nothing is returned. */
  lemma MultiTileDegenerate(tiles: seq<seq<int>>, width: nat, height: nat, tileNum: int)
    ensures tileNum == 1 ==> MultiTile(tiles, width, height, tileNum) == tiles
    ensures tileNum <= 0 ==> MultiTile(tiles, width, height, tileNum) == []
  {
    if tileNum != 1 {
      ReplicateLength(tiles, height, (tileNum - 1) * (width * height), Passes(tileNum));
    }
  }

  /** For tile_num >= 2 and f = tile_num - 1 the generator returns width * f
      tuples; tuple g * f + k is column g followed by k + 1 copies of column g,
      all shifted by the same f * width * height, so it holds (k + 2) * height
      indices. */
  lemma GridEntry(width: nat, height: nat, tileNum: int, g: nat, k: nat, c: nat, p: nat)
    requires width > 0 && height > 0 && tileNum >= 2
    requires g < width && k < tileNum - 1 && c <= k + 1 && p < height
    ensures |Grid(width, height, tileNum)| == width * (tileNum - 1)
    ensures g * (tileNum - 1) + k < |Grid(width, height, tileNum)|
    ensures |Grid(width, height, tileNum)[g * (tileNum - 1) + k]| == (k + 2) * height
    ensures c * height + p < |Grid(width, height, tileNum)[g * (tileNum - 1) + k]|
    ensures Grid(width, height, tileNum)[g * (tileNum - 1) + k][c * height + p]
         == Wire(g, p, height) + (if c == 0 then 0 else (tileNum - 1) * (width * height))
  {
    ReplicatedEntry(SingleTile(width, height), height, (tileNum - 1) * (width * height), tileNum - 1, g, k, c, p);
    ReplicateLength(SingleTile(width, height), height, (tileNum - 1) * (width * height), tileNum - 1);
  }

  /** Entry g * f + k of the replication step, at copy c and row p, for
      input tuples of exactly h entries. */
  lemma ReplicatedEntry(tiles: seq<seq<int>>, h: nat, d: int, f: nat, g: nat, k: nat, c: nat, p: nat)
    requires g < |tiles| && |tiles[g]| == h && k < f && c <= k + 1 && p < h
    ensures g * f + k < |Replicate(tiles, h, d, f)|
    ensures |Replicate(tiles, h, d, f)[g * f + k]| == (k + 2) * h
    ensures c * h + p < |Replicate(tiles, h, d, f)[g * f + k]|
    ensures Replicate(tiles, h, d, f)[g * f + k][c * h + p] == tiles[g][p] + (if c == 0 then 0 else d)
  {
    var col := tiles[g];
    ReplicateEntry(tiles, h, d, f, g, k);
    assert Take(col, h) == col;
    var entry := Grown(col, d, k + 1);
    assert Replicate(tiles, h, d, f)[g * f + k] == entry;
    GrownEntry(col, d, k + 1, c, p);
  }

  /** For two tiles, the case the generator was written for, the map has one
      tuple per column, each of 2 * height indices, and together they list
      every index of [0, 2 * width * height) exactly once. */
  lemma TwoTilePartition(width: nat, height: nat)
    requires width > 0 && height > 0
    ensures |Grid(width, height, 2)| == width
    ensures forall g :: 0 <= g < width ==> |Grid(width, height, 2)[g]| == 2 * height
    ensures multiset(Flatten(Grid(width, height, 2))) == multiset(Range(0, 2 * (width * height)))
  {
    TwoTilePermutes(width, height);
    TwoTileLengths(width, height);
  }

  /** Two tiles as written, joined, list every index of [0, 2 * width * height)
      exactly once. */
  lemma TwoTilePermutes(width: nat, height: nat)
    requires width > 0 && height > 0
    ensures multiset(Flatten(Grid(width, height, 2))) == multiset(Range(0, 2 * (width * height)))
  {
    SingleTilePermutes(width, height);
    ShiftedTilePermutes(width, height, width * height);
    MulNonneg(width, height);
    JoinShifted(SingleTile(width, height), width * height);
    TwoTileZip(width, height);
  }

  /** Two tiles as written give one tuple per column, of 2 * height indices. */
  lemma TwoTileLengths(width: nat, height: nat)
    requires width > 0 && height > 0
    ensures |Grid(width, height, 2)| == width
    ensures forall g :: 0 <= g < width ==> |Grid(width, height, 2)[g]| == 2 * height
  {
    var tiles := SingleTile(width, height);
    ReplicateLength(tiles, height, width * height, 1);
    forall g | 0 <= g < width
      ensures |Grid(width, height, 2)[g]| == 2 * height
    {
      ReplicateOnce(tiles, height, width * height, g);
    }
  }

  /** Two tiles as written pair every column with its copy shifted by one
      tile, so joined they hold the tile and its shifted copy. */
  lemma TwoTileZip(width: nat, height: nat)
    requires width > 0 && height > 0
    ensures multiset(Flatten(Grid(width, height, 2)))
         == multiset(Flatten(SingleTile(width, height)) + Flatten(ShiftAll(SingleTile(width, height), width * height)))
  {
    var d := width * height;
    var tiles := SingleTile(width, height);
    var r := Grid(width, height, 2);
    ReplicateLength(tiles, height, d, 1);
    forall g | 0 <= g < width
      ensures r[g] == tiles[g] + ShiftAll(tiles, d)[g]
    {
      ReplicateOnce(tiles, height, d, g);
    }
    FlattenZip(tiles, ShiftAll(tiles, d), r);
  }

  // ---------------------------------------------------------------------------
  // Worked configurations
  // ---------------------------------------------------------------------------

  /** A 2 x 3 tile: column 0 runs up, column 1 runs back down. */
  lemma SingleTileExample()
    ensures SingleTile(2, 3) == [[0, 1, 2], [5, 4, 3]]
  {
    assert Column(0, 3) == [0, 1, 2];
    assert Column(1, 3) == [5, 4, 3];
  }

  /** Two chained 4 x 2 tiles: every tuple is a column of the first tile
      followed by the same column of the second, eight indices further on. */
  lemma TwoTileExample()
    ensures Grid(4, 2, 2) == [[0, 1, 8, 9], [3, 2, 11, 10], [4, 5, 12, 13], [7, 6, 15, 14]]
  {
    var t := SingleTile(4, 2);
    assert t == [[0, 1], [3, 2], [4, 5], [7, 6]] by {
      assert Column(0, 2) == [0, 1] && Column(1, 2) == [3, 2];
      assert Column(2, 2) == [4, 5] && Column(3, 2) == [7, 6];
    }
    var r := Grid(4, 2, 2);
    assert r == Replicate(t, 2, 8, 1);
    assert |r| == 4 by {
      ReplicateLength(t, 2, 8, 1);
    }
    assert r[0] == [0, 1, 8, 9] by {
      ReplicateOnce(t, 2, 8, 0);
      assert Shift([0, 1], 8) == [8, 9];
    }
    assert r[1] == [3, 2, 11, 10] by {
      ReplicateOnce(t, 2, 8, 1);
      assert Shift([3, 2], 8) == [11, 10];
    }
    assert r[2] == [4, 5, 12, 13] by {
      ReplicateOnce(t, 2, 8, 2);
      assert Shift([4, 5], 8) == [12, 13];
    }
    assert r[3] == [7, 6, 15, 14] by {
      ReplicateOnce(t, 2, 8, 3);
      assert Shift([7, 6], 8) == [15, 14];
    }
  }
}

=== FILE: seqs.dfy ===
/** Sequence helpers for index tuples: integer ranges, reversal, a constant
    shift, and the concatenation of a list of tuples. */
module Seqs {

  /** The ascending run of integers lo, lo+1, ..., hi-1 (empty when hi <= lo). */
  function Range(lo: int, hi: int): (r: seq<int>)
    ensures |r| == (if lo <= hi then hi - lo else 0)
    ensures forall i :: 0 <= i < |r| ==> r[i] == lo + i
  {
    seq(if lo <= hi then hi - lo else 0, i => lo + i)
  }

  /** The same elements in the opposite order. */
  function Reverse<T>(s: seq<T>): (r: seq<T>)
    ensures |r| == |s|
    ensures forall i :: 0 <= i < |s| ==> r[i] == s[|s| - 1 - i]
  {
    if |s| == 0 then [] else Reverse(s[1..]) + [s[0]]
  }

  /** Every element increased by the constant d. */
  function Shift(s: seq<int>, d: int): (r: seq<int>)
    ensures |r| == |s|
    ensures forall i :: 0 <= i < |s| ==> r[i] == s[i] + d
  {
    seq(|s|, i requires 0 <= i < |s| => s[i] + d)
  }

  /** Every tuple of a list shifted by the same constant d. */
  function ShiftAll(ss: seq<seq<int>>, d: int): (r: seq<seq<int>>)
    ensures |r| == |ss|
    ensures forall i :: 0 <= i < |ss| ==> r[i] == Shift(ss[i], d)
  {
    seq(|ss|, i requires 0 <= i < |ss| => Shift(ss[i], d))
  }

  /** All tuples of a list, joined in order. */
  function Flatten(ss: seq<seq<int>>): seq<int>
  {
    if |ss| == 0 then [] else Flatten(ss[..|ss| - 1]) + ss[|ss| - 1]
  }

  /** Reversal keeps every element with its multiplicity. */
  lemma {:induction false} ReversePermutes<T>(s: seq<T>)
    ensures multiset(Reverse(s)) == multiset(s)
  {
    if |s| > 0 {
      ReversePermutes(s[1..]);
      assert s == [s[0]] + s[1..];
    }
  }

  /** Two adjacent ranges join into one. */
  lemma RangeSplit(lo: int, mid: int, hi: int)
    requires lo <= mid <= hi
    ensures Range(lo, mid) + Range(mid, hi) == Range(lo, hi)
  {
  }

  /** Permutations of two adjacent ranges join into a permutation of their union. */
  lemma JoinPermutations(a: seq<int>, b: seq<int>, lo: int, mid: int, hi: int)
    requires lo <= mid <= hi
    requires multiset(a) == multiset(Range(lo, mid))
    requires multiset(b) == multiset(Range(mid, hi))
    ensures multiset(a + b) == multiset(Range(lo, hi))
  {
    RangeSplit(lo, mid, hi);
  }

  /** A permutation of [0, m) followed by a permutation of [m, 2m) is a
      permutation of [0, 2m). */
  lemma JoinDouble(a: seq<int>, b: seq<int>, m: int)
    requires 0 <= m
    requires multiset(a) == multiset(Range(0, m))
    requires multiset(b) == multiset(Range(m, m + m))
    ensures multiset(a + b) == multiset(Range(0, 2 * m))
  {
    JoinPermutations(a, b, 0, m, 2 * m);
  }

  /** If a list of tuples joins to a permutation of [0, m) and its copy
      shifted by m joins to a permutation of [m, 2m), the two joined one
      after the other are a permutation of [0, 2m). */
  lemma JoinShifted(ss: seq<seq<int>>, m: int)
    requires 0 <= m
    requires multiset(Flatten(ss)) == multiset(Range(0, m))
    requires multiset(Flatten(ShiftAll(ss, m))) == multiset(Range(m, m + m))
    ensures multiset(Flatten(ss) + Flatten(ShiftAll(ss, m))) == multiset(Range(0, 2 * m))
  {
    JoinDouble(Flatten(ss), Flatten(ShiftAll(ss, m)), m);
  }

  /** A permutation of [0, x) followed by a permutation of [x, x + d) is a
      permutation of [0, y) when y is x + d. */
  lemma JoinNext(a: seq<int>, b: seq<int>, x: int, d: int, y: int)
    requires 0 <= x && 0 <= d && y == x + d
    requires multiset(a) == multiset(Range(0, x))
    requires multiset(b) == multiset(Range(x, x + d))
    ensures multiset(a + b) == multiset(Range(0, y))
  {
    JoinPermutations(a, b, 0, x, y);
  }

  /** Shifting a range moves both of its ends. */
  lemma ShiftRange(lo: int, hi: int, d: int)
    requires lo <= hi
    ensures Shift(Range(lo, hi), d) == Range(lo + d, hi + d)
  {
  }

  /** Shifting by zero changes nothing. */
  lemma ShiftZero(ss: seq<seq<int>>)
    ensures ShiftAll(ss, 0) == ss
  {
    forall i | 0 <= i < |ss|
      ensures Shift(ss[i], 0) == ss[i]
    {
    }
  }

  /** Shifting commutes with reversal. */
  lemma ShiftReverse(s: seq<int>, d: int)
    ensures Shift(Reverse(s), d) == Reverse(Shift(s, d))
  {
  }

  /** Joining the tuples of a pairwise concatenation collects the same
      elements as joining each list separately. */
  lemma {:induction false} FlattenZip(a: seq<seq<int>>, b: seq<seq<int>>, ab: seq<seq<int>>)
    requires |a| == |b| == |ab|
    requires forall i :: 0 <= i < |ab| ==> ab[i] == a[i] + b[i]
    ensures multiset(Flatten(ab)) == multiset(Flatten(a)) + multiset(Flatten(b))
  {
    if |ab| > 0 {
      var n := |ab| - 1;
      FlattenZip(a[..n], b[..n], ab[..n]);
    }
  }

  /** Joining after appending one tuple is joining, then appending it. */
  lemma FlattenSnoc(ss: seq<seq<int>>, t: seq<int>)
    ensures Flatten(ss + [t]) == Flatten(ss) + t
  {
    assert (ss + [t])[..|ss|] == ss;
  }
}

=== FILE: tile_grid.dfy ===
/** TileGrid: the adapter that wraps every tuple of the generated map in a
    sub-map bound to the strip, and forwards indexing, fill, show, brightness
    and auto-write. The strip is an abstract record: its brightness, its
    auto-write flag and the log of calls the grid makes on it and on its
    sub-maps (what a sub-map does with a write is not part of this model). */
module TileGrids {
  import opened GridMapper
  import GridProperties

  /** The exceptions the adapter raises. */
  datatype Error =
    | NotImplemented    // NotImplementedError: slices are not supported
    | IndexOutOfRange   // IndexError: sub-map selector out of range
    | InvalidArgument   // ValueError: assignment with a plain index
    | TypeMismatch      // TypeError: a tuple compared with 0 in __getitem__

  datatype Result<T> = Ok(value: T) | Err(error: Error)

  /** What is put between the brackets of grid[...]. */
  datatype Key =
    | Index(i: int)       // grid[i]
    | Slice               // grid[a:b]
    | Pair(a: int, b: int) // grid[a, b]

  /** A call made on the strip or on one of the sub-maps. */
  datatype Event<C> =
    | SubWrite(sub: nat, index: int, color: C) // sub-map `sub` assigned at `index`
    | SubFill(sub: nat, color: C)              // sub-map `sub` filled
    | Show                                     // the strip's show()

  /** The strip collaborator as far as the adapter sees it. */
  datatype Strip<C> = Strip(brightness: real, autoWrite: bool, log: seq<Event<C>>)

  /** The adapter: the strip, the configuration, and one index tuple per sub-map. */
  datatype TileGrid<C> = TileGrid(strip: Strip<C>, width: nat, height: nat, tileNum: int, maps: seq<seq<int>>)

  /** Number of show() calls in a log. */
  function ShowCount<C>(log: seq<Event<C>>): nat
  {
    if |log| == 0 then 0 else ShowCount(log[..|log| - 1]) + (if log[|log| - 1].Show? then 1 else 0)
  }

  lemma ShowCountAppend<C>(log: seq<Event<C>>, more: seq<Event<C>>)
    ensures ShowCount(log + more) == ShowCount(log) + ShowCount(more)
  {
    if |more| == 0 {
      assert log + more == log;
    } else {
      var n := |more| - 1;
      ShowCountAppend(log, more[..n]);
      assert (log + more)[..|log| + n] == log + more[..n];
    }
  }

  // ---------------------------------------------------------------------------
  // Construction and length
  // ---------------------------------------------------------------------------

  /** __init__: one sub-map per tuple of the generated map when tile_num > 1,
      none otherwise. The orientation, alternating, reverse and corner
      arguments are accepted by the source and never read, so they are not
      parameters here. */
  function New<C>(strip: Strip<C>, width: nat, height: nat, tileNum: int): (r: TileGrid<C>)
    ensures r.strip == strip && r.width == width && r.height == height && r.tileNum == tileNum
    ensures tileNum <= 1 || width == 0 || height == 0 ==> |r.maps| == 0
    ensures tileNum > 1 && width > 0 && height > 0 ==> |r.maps| == width * (tileNum - 1)
    ensures tileNum > 1 ==> r.maps == Grid(width, height, tileNum)
  {
    if tileNum > 1 then
      GridProperties.ReplicateLength(SingleTile(width, height), height, (tileNum - 1) * (width * height), tileNum - 1);
      TileGrid(strip, width, height, tileNum, Grid(width, height, tileNum))
    else
      TileGrid(strip, width, height, tileNum, [])
  }

  /** __len__: the number of sub-maps, not the number of pixels. */
  function Len<C>(g: TileGrid<C>): nat
  {
    |g.maps|
  }

  /** __len__ of a new grid: no sub-maps for a single tile (or fewer) or an
      empty tile, and width * (tile_num - 1) otherwise, each of them one
      tuple of the generated map. */
  lemma NewLength<C>(strip: Strip<C>, width: nat, height: nat, tileNum: int)
    ensures tileNum <= 1 ==> Len(New(strip, width, height, tileNum)) == 0
    ensures tileNum > 1 ==> Len(New(strip, width, height, tileNum)) == |Grid(width, height, tileNum)|
    ensures tileNum > 1 && (width == 0 || height == 0) ==> Len(New(strip, width, height, tileNum)) == 0
    ensures tileNum > 1 && width > 0 && height > 0 ==>
              Len(New(strip, width, height, tileNum)) == width * (tileNum - 1)
  {
  }

  // ---------------------------------------------------------------------------
  // Indexing
  // ---------------------------------------------------------------------------

  /** __getitem__: a slice is refused, a negative index counts once from the
      end, and anything still outside [0, n) is an IndexError. A tuple key
      reaches the comparison with 0 and fails there. */
  function Get<C>(g: TileGrid<C>, key: Key): (r: Result<seq<int>>)
    ensures key.Slice? ==> r == Err(NotImplemented)
    ensures key.Pair? ==> r == Err(TypeMismatch)
    ensures key.Index? ==> (r.Ok? <==> -(Len(g) as int) <= key.i < Len(g))
    ensures key.Index? && !r.Ok? ==> r == Err(IndexOutOfRange)
    ensures r.Ok? ==> r.value == g.maps[if key.i < 0 then key.i + Len(g) else key.i]
  {
    match key
    case Slice => Err(NotImplemented)
    case Pair(_, _) => Err(TypeMismatch)
    case Index(i) =>
      var j := if i < 0 then i + Len(g) else i;
      if j >= Len(g) || j < 0 then Err(IndexOutOfRange) else Ok(g.maps[j])
  }

  /** Negative selectors: grid[-k] is grid[n - k] for 1 <= k <= n, and
      grid[-(n + 1)] raises IndexError. */
  lemma GetNegative<C>(g: TileGrid<C>, k: int)
    requires 1 <= k <= Len(g)
    ensures Get(g, Index(-k)) == Get(g, Index(Len(g) - k))
    ensures Get(g, Index(-(Len(g) + 1))) == Err(IndexOutOfRange)
  {
  }

  /** Coordinate resolution for two chained tiles: grid[x][y] is the
      serpentine index of (x, y) for the first `height` rows and that of
      (x, y - height) shifted past the first tile for the rest. */
  lemma ResolveTwoTiles<C>(strip: Strip<C>, width: nat, height: nat, x: nat, y: nat)
    requires width > 0 && height > 0 && x < width && y < 2 * height
    ensures Get(New(strip, width, height, 2), Index(x)).Ok?
    ensures |Get(New(strip, width, height, 2), Index(x)).value| == 2 * height
    ensures Get(New(strip, width, height, 2), Index(x)).value[y]
         == if y < height then Wire(x, y, height) else width * height + Wire(x, y - height, height)
  {
    var c := if y < height then 0 else 1;
    var p := if y < height then y else y - height;
    GridProperties.GridEntry(width, height, 2, x, 0, c, p);
    assert x * (2 - 1) + 0 == x;
    assert c * height + p == y;
  }

  /** A list index in Python style: negative values count once from the end. */
  function ListIndex(n: nat, a: int): (r: Result<nat>)
    ensures r.Ok? <==> -(n as int) <= a < n
    ensures !r.Ok? ==> r == Err(IndexOutOfRange)
    ensures r.Ok? ==> r.value < n && (r.value == a || r.value == a + n)
  {
    if 0 <= a < n then Ok(a) else if -(n as int) <= a < 0 then Ok((a + n) as nat) else Err(IndexOutOfRange)
  }

  /** __setitem__: a slice is refused, a plain index is a ValueError, and a
      pair (a, b) delegates the assignment to sub-map a at b; after that the
      strip is shown when its auto-write flag is set. A raised error leaves
      the grid as it was. */
  function Set<C>(g: TileGrid<C>, key: Key, color: C): (r: Result<TileGrid<C>>)
    ensures key.Slice? ==> r == Err(NotImplemented)
    ensures key.Index? ==> r == Err(InvalidArgument)
    ensures key.Pair? ==> (r.Ok? <==> -(Len(g) as int) <= key.a < Len(g))
    ensures key.Pair? && !r.Ok? ==> r == Err(IndexOutOfRange)
    ensures r.Ok? ==>
              var j := if key.a < 0 then key.a + Len(g) else key.a;
              && r.value == g.(strip := r.value.strip)
              && r.value.strip.brightness == g.strip.brightness
              && r.value.strip.autoWrite == g.strip.autoWrite
              && r.value.strip.log
                 == g.strip.log + [SubWrite(j, key.b, color)] + (if g.strip.autoWrite then [Show] else [])
  {
    match key
    case Slice => Err(NotImplemented)
    case Index(_) => Err(InvalidArgument)
    case Pair(a, b) =>
      match ListIndex(Len(g), a)
      case Err(e) => Err(e)
      case Ok(j) =>
        var written := g.strip.(log := g.strip.log + [SubWrite(j, b, color)]);
        Ok(g.(strip := if written.autoWrite then written.(log := written.log + [Show]) else written))
  }

  /** A successful assignment calls show() once when auto-write is on and
      never when it is off; a failed one calls nothing. */
  lemma SetShowsIffAutoWrite<C>(g: TileGrid<C>, key: Key, color: C)
    ensures Set(g, key, color).Ok? ==>
              ShowCount(Set(g, key, color).value.strip.log)
              == ShowCount(g.strip.log) + (if g.strip.autoWrite then 1 else 0)
  {
    var r := Set(g, key, color);
    if r.Ok? {
      var j := if key.a < 0 then key.a + Len(g) else key.a;
      var written := g.strip.log + [SubWrite(j, key.b, color)];
      ShowCountAppend(g.strip.log, [SubWrite(j, key.b, color)]);
      var show: seq<Event<C>> := [Show];
      ShowCountAppend(written, show);
      assert [SubWrite(j, key.b, color)][..0] == [] && show[..0] == [];
      assert r.value.strip.log == if g.strip.autoWrite then written + [Show] else written;
    }
  }

  // ---------------------------------------------------------------------------
  // Forwarded operations
  // ---------------------------------------------------------------------------

  /** min(max(b, 0.0), 1.0). */
  function Clamp(b: real): (r: real)
    ensures 0.0 <= r <= 1.0
    ensures 0.0 <= b <= 1.0 ==> r == b
    ensures b < 0.0 ==> r == 0.0
    ensures b > 1.0 ==> r == 1.0
  {
    var low := if b > 0.0 then b else 0.0;
    if low < 1.0 then low else 1.0
  }

  /** Clamping is idempotent and monotone. */
  lemma ClampProperties(a: real, b: real)
    ensures Clamp(Clamp(a)) == Clamp(a)
    ensures a <= b ==> Clamp(a) <= Clamp(b)
  {
  }

  /** The brightness getter reads through to the strip. */
  function Brightness<C>(g: TileGrid<C>): real
  {
    g.strip.brightness
  }

  /** The brightness setter stores the clamped value on the strip and
      changes nothing else. */
  function SetBrightness<C>(g: TileGrid<C>, b: real): (r: TileGrid<C>)
    ensures 0.0 <= Brightness(r) <= 1.0
    ensures 0.0 <= b <= 1.0 ==> Brightness(r) == b
    ensures b < 0.0 ==> Brightness(r) == 0.0
    ensures b > 1.0 ==> Brightness(r) == 1.0
    ensures Brightness(r) == Clamp(b)
    ensures r == g.(strip := r.strip)
    ensures r.strip.autoWrite == g.strip.autoWrite && r.strip.log == g.strip.log
  {
    g.(strip := g.strip.(brightness := Clamp(b)))
  }

  /** The auto_write getter reads through to the strip. */
  function AutoWrite<C>(g: TileGrid<C>): bool
  {
    g.strip.autoWrite
  }

  /** The auto_write setter stores the flag on the strip unchanged. */
  function SetAutoWrite<C>(g: TileGrid<C>, value: bool): (r: TileGrid<C>)
    ensures AutoWrite(r) == value
    ensures r == g.(strip := r.strip)
    ensures r.strip.brightness == g.strip.brightness && r.strip.log == g.strip.log
  {
    g.(strip := g.strip.(autoWrite := value))
  }

  /** show(): one show() on the strip. */
  function ShowGrid<C>(g: TileGrid<C>): (r: TileGrid<C>)
    ensures ShowCount(r.strip.log) == ShowCount(g.strip.log) + 1
    ensures r == g.(strip := r.strip)
    ensures r.strip.brightness == g.strip.brightness && r.strip.autoWrite == g.strip.autoWrite
    ensures r.strip.log == g.strip.log + [Show]
  {
    g.(strip := g.strip.(log := g.strip.log + [Show]))
  }

  /** fill(): fill every sub-map with the colour, in order, without show(). */
  method Fill<C>(g: TileGrid<C>, color: C) returns (r: TileGrid<C>)
    ensures r == g.(strip := r.strip)
    ensures r.strip.brightness == g.strip.brightness && r.strip.autoWrite == g.strip.autoWrite
    ensures |r.strip.log| == |g.strip.log| + Len(g)
    ensures r.strip.log[..|g.strip.log|] == g.strip.log
    ensures forall i :: 0 <= i < Len(g) ==> r.strip.log[|g.strip.log| + i] == SubFill(i, color)
    ensures ShowCount(r.strip.log) == ShowCount(g.strip.log)
  {
    r := g;
    var i := 0;
    while i < |g.maps|
      invariant 0 <= i <= |g.maps|
      invariant r == g.(strip := r.strip)
      invariant r.strip.brightness == g.strip.brightness && r.strip.autoWrite == g.strip.autoWrite
      invariant |r.strip.log| == |g.strip.log| + i
      invariant r.strip.log[..|g.strip.log|] == g.strip.log
      invariant forall k :: 0 <= k < i ==> r.strip.log[|g.strip.log| + k] == SubFill(k, color)
      invariant ShowCount(r.strip.log) == ShowCount(g.strip.log)
    {
      ShowCountAppend(r.strip.log, [SubFill(i, color)]);
      assert ShowCount([SubFill(i, color)]) == 0 by {
        assert [SubFill(i, color)][..0] == [];
      }
      r := r.(strip := r.strip.(log := r.strip.log + [SubFill(i, color)]));
      i := i + 1;
    }
  }
}
